=== FILE: README.md ===
# Inventory ledger — a Dafny model

This project models the in-memory core of a single-user console program
that keeps a product stock (`estoque`), a customer list (`clientes`), a
queue of sales (`fila_vendas`) and an undo history (`pilha_operacoes`),
with two identifier counters that start at 100 (products) and 200
(customers). It covers:

- the record store and lookup of a product or customer by identifier
  (first match of a linear scan);
- registering a product or a customer (validate, then pre-increment the
  counter, append, push an undo entry);
- making a sale (a chain of checks, then stock down, customer spend up,
  a snapshot appended to the sales queue and pushed on the undo history);
- the stock-value and sales-value reports and product search by
  identifier or by a case-insensitive piece of the name;
- the undo engine, which pops one entry and reverses a registration by
  removing the record or a sale by looking product and customer up again
  and reversing what can still be reversed.

Every operation is a pure function from a `Store` and the already-read
inputs to a `Reply` holding the new store and what the program would have
reported. A rejected operation hands back the store it was given, so "a
failed validation mutates nothing" is a postcondition.

Files, one module each:

- `text.dfy` (`Text`): `str.strip()` with Python's whitespace set, ASCII
  lowercasing, substring containment and its specification.
- `records.dfy` (`Records`): the datatypes, the initial store, lookup.
- `operations.dfy` (`Operations`): registrations, sale, reports, search.
- `undo.dfy` (`Undo`): the undo engine and the round-trip lemmas.
- `ledger.dfy` (`Ledger`): the invariant `Valid` and its preservation by
  every operation, undo included.
- `session.dfy` (`Session`): sessions as command sequences; validity of
  every store reached from the start, undo as the inverse of every recorded command,
  identifiers never issued twice, and a worked example.

The invariant `Valid` says: identifiers are unique and never above the
last one issued; stock and prices are non-negative; the sales queue is
exactly the sales recorded in the undo history; every undo entry refers
to records still present and not to records registered after it; and
each customer's spend is the sum of the totals of their sales still in
the queue. It holds in the store the program starts with when no data
files exist, and every command preserves it. So in every store reached
from that start, undo restores exactly what the last recorded command
changed. A store reloaded from files after a session that made a sale is
not valid: the customers' spends are saved, but the sales queue is not.
The lemmas that assume `Valid` therefore describe sessions started from
the empty store. The round trips in `Undo` do not assume it. `SellThenUndo` holds for
every store, reloaded ones included. The two registration round trips
hold for every store whose next identifier is not in use.

## Model

| member | source | states |
|---|---|---|
| Records.Initial | main.py:27-34 | The program starts with empty stock, customers, sales queue and undo history, and the first identifiers it will issue are 101 and 201. |
| Records.FindProduct | main.py:103-104 | Product lookup answers the position of the first product with the identifier, or none exactly when no product carries it. |
| Records.FindCustomer | main.py:106-107 | Customer lookup answers the position of the first customer with the identifier, or none exactly when no customer carries it. |
| Records.IndexOf | main.py:103-107 | The first-match scan both lookups share: the answer holds the identifier, nothing before it does, and there is no answer iff the identifier is absent. |
| Text.Strip | main.py:113 | Stripping yields a slice of the typed text that neither starts nor ends with whitespace. |
| Text.StripCuts | main.py:113 | Everything stripping cuts from either end of the typed text is whitespace. |
| Text.StripUnique | main.py:113 | Any slice obtained by cutting only whitespace from the ends and left with no whitespace at either end is the stripped text, so `Strip`, `StripCuts` and this lemma together pin `str.strip()` down completely. |
| Text.StripEmptyIff | main.py:113-116 | A name is refused as empty exactly when it is made of whitespace only. |
| Text.StripIdempotent | main.py:113 | Stripping an already stripped name changes nothing. |
| Text.LowerIdempotent | main.py:287-288 | Two properties of `Lower`, the model of `str.lower()`: the result has no upper-case ASCII letter left, and lowercasing it again changes nothing. `Lower`'s own contract adds that it keeps the length and changes no character outside A–Z. |
| Text.StripLower | main.py:287 | Stripping and then lowercasing the search term is the same as lowercasing and then stripping it. |
| Text.ContainsIff | main.py:288 | Specifies `Contains`, the model of Python's `in` on strings: the substring scan succeeds exactly when the term occurs at some position of the name, the empty term occurring everywhere. |
| Operations.RegisterProduct | main.py:111-129 | Refusal reasons in the order name, quantity, price, each iff its condition; a refusal changes nothing; success moves the counter up by one, appends the product with that identifier and the stripped name at the end of the stock, pushes its registration entry and changes nothing else. |
| Operations.RegisteredNameStripped | main.py:113-127 | The name a product registration stores is non-empty and already stripped, so typing the stored name again gives the very same registration. |
| Operations.RegisterCustomer | main.py:141-151 | An empty name is refused and changes nothing; otherwise the counter moves up by one and a customer with that identifier and a spend of 0 is appended, with its entry pushed, nothing else changing. |
| Operations.Sell | main.py:163-206 | Each refusal (empty stock, no customers, product not found, customer not found, quantity not positive, quantity above stock) happens iff its condition holds after the earlier ones passed, and changes nothing; a sale goes through iff all checks pass, and then only that product's quantity drops by the quantity sold (staying non-negative), only that customer's spend rises by quantity times price, and one snapshot is appended to the queue and pushed on the history. |
| Operations.StockValue | main.py:253-255 | The stock value is never negative when no stock or price is negative. |
| Operations.SalesValue | main.py:258-260 | The sales value is never negative when no sale total is negative. |
| Operations.SaleConservation | main.py:191-204 | A sale's total is quantity times price; it leaves the stock value and enters both the sales value and the customers' combined spend. |
| Operations.FilterByName | main.py:288 | A product is among the name matches iff it is in stock and its lowercased name contains the term. |
| Operations.SearchIgnoresTermCase | main.py:287-288 | Search by name gives the same reply for a typed term and for its lowercased form, for every stock, because stripping and lowercasing commute. |
| Operations.FilterAppend | main.py:288 | Name filtering distributes over concatenation, so the matches keep their stock order. |
| Operations.Search | main.py:273-295 | An empty stock is reported as such; an unknown mode is invalid; by identifier at most the first product with it is found, none iff none carries it; by name exactly the products whose lowercased name contains the stripped, lowercased term, in stock order and once per stock entry (the name filter of the stock). |
| Undo.ReverseSale | main.py:238-250 | A sale is reversed by looking both records up again by identifier: a product still present gets its quantity back, a customer still present loses the total, a missing one is left alone, the tail of a non-empty sales queue is dropped, identifiers and counters stay. |
| Undo.UndoLast | main.py:218-250 | An empty history is reported and changes nothing; otherwise exactly one entry is popped, counters never move back, a registration removes the first record with that identifier or reports it already gone without change, and a sale is reversed as far as possible. |
| Undo.SellThenUndo | main.py:238-249 | Undo right after any successful sale gives back the exact store from before the sale. |
| Undo.RegisterProductThenUndo | main.py:224-229 | Undo right after registering a product with a fresh identifier restores the store, except the counter stays advanced. |
| Undo.RegisterCustomerThenUndo | main.py:231-236 | Undo right after registering a customer with a fresh identifier restores the store, except the counter stays advanced. |
| Ledger.InitialValid | main.py:27-34 | The store the program starts with satisfies the invariant. |
| Ledger.RegisterProductValid | main.py:111-129 | Product registration preserves the invariant. |
| Ledger.RegisterCustomerValid | main.py:141-151 | Customer registration preserves the invariant. |
| Ledger.SellValid | main.py:163-206 | A sale preserves the invariant, including every customer's spend being the sum of their queued sales. |
| Ledger.UndoValid | main.py:218-250 | Undo preserves the invariant whatever entry is on top. |
| Ledger.SpentByAppend | main.py:193-204 | Appending a sale to the queue adds its total to its own customer's sum and nothing to any other customer's. |
| Session.RunValid | main.py:317-331 | Any sequence of commands from a valid store, in particular from the start, ends in a valid store. |
| Session.ValidAmountsNonnegative | main.py:184-193 | In every valid store no stock, spend, stock value or sales value is negative. |
| Session.ValidNextIdsFresh | main.py:125-126 | In every valid store the next identifiers are not in use. |
| Session.UndoInvertsStep | main.py:218-250 | In every valid store, undo right after any recorded command restores the store except for the counters, which stay advanced. |
| Session.StepCounters | main.py:125 | Each counter moves up by one exactly when a registration of its kind is recorded and otherwise stays, under undo too. |
| Session.IssuedProductIdsIncrease | main.py:125 | Along any session, undos included, issued product identifiers strictly increase and lie between the starting and final counters, so none is issued twice. |
| Session.IssuedCustomerIdsIncrease | main.py:147 | Along any session, undos included, issued customer identifiers strictly increase and lie between the starting and final counters. |
| Session.AfterSaleValid | main.py:163-206 | The store after the worked registration and sale satisfies the invariant. |
| Session.ReloadBreaksSpend | main.py:44-46 | The saved store after that sale is valid, but the same store with the sales queue and undo history dropped, as a save and reload leaves it, is not: the spend survives and the sales do not. |
| Session.WidgetRegistered | main.py:111-129 | From the start, registering "Widget" with 10 units at 2.50 issues identifier 101 and pushes its entry. |
| Session.AnaRegistered | main.py:141-151 | Registering "Ana" next issues identifier 201 with nothing spent. |
| Session.WidgetSold | main.py:163-206 | Selling 3 Widgets to Ana leaves 7 in stock, a spend of 7.50 and one sale (Widget, 3, 7.50, Ana) in the queue. |
| Session.WidgetSaleUndone | main.py:238-250 | Undoing that sale gives back 10 in stock, a spend of 0 and an empty queue. |

## Left out

- `salvar_dados` and `carregar_dados` (main.py:38-81): file I/O and text parsing. Stock, customers with their spends, and the counters are saved (main.py:40-47) and reloaded (main.py:57-77). The sales queue and the undo history are not, so a reloaded session starts with both empty. Even from well-formed files the reloaded store breaks the spend clause of `Valid` once a sale was made, as `Session.ReloadBreaksSpend` shows. Hand-edited files could also break the identifier/counter relation. So the invariant lemmas cover sessions started from the empty store, not resumed ones.
- `obter_int`, `obter_float` and the `input()` calls: the validated values are parameters of the operations.
- `menu`, the listings (`listar_produtos`, `listar_clientes`, `ver_vendas`, `clientes_e_gastos`), the report `print`s and `__str__`: output only. Messages are modelled as the `Reason` and `UndoNote` values.
- Floating point: prices, spends and totals are exact `real`s. Rounding, `nan`, infinities and `-0.0` are not modelled; in the program a `nan` price passes the `< 0` check. Nor is the `OverflowError` that multiplying an integer too large for a float by a price raises. It can happen in a sale at main.py:191, which then fails before changing anything, and in the stock-value report at main.py:254. `Operations.Sell` accepts such a sale, and `Operations.StockValue` returns its exact value.
- Operations.Sell: accepts a sale whose quantity times price overflows a float, which the program abandons through the exception without changing anything, because money is exact here.
- Undo.UndoLast: a registration is undone by removing the first record carrying the entry's identifier, while the program's `list.remove` removes that very object; the two differ only when identifiers repeat, which the invariant rules out.
- Records.FindProduct: answers the position of the record rather than the record itself, so that the pure operations can update it.
- Text.LowerChar: lowercases ASCII letters only; Unicode case mapping of `str.lower()` is not modelled.
- The outer `try`/`except` of the menu (main.py:348), which prints any exception and carries on. The only exception the modelled code can raise is the float overflow named in the floating-point line above. In the program it leaves the store as it was.

=== FILE: ledger.dfy ===
/** The invariant every store reached from the empty start keeps, and its
    preservation by each operation, undo included. */
module Ledger {
  import opened Records
  import opened Operations
  import opened Undo

  // -------------------------------------------------------------- references

  /** The product identifier an undo entry refers to, if any. */
  function ProductRef(e: UndoEntry): Option<int> {
    match e
    case ProductAdded(p) => Some(p.id)
    case CustomerAdded(_) => None
    case SaleMade(v) => Some(v.productId)
  }

  /** The customer identifier an undo entry refers to, if any. */
  function CustomerRef(e: UndoEntry): Option<int> {
    match e
    case ProductAdded(_) => None
    case CustomerAdded(c) => Some(c.id)
    case SaleMade(v) => Some(v.customerId)
  }

  /** Every identifier `e` refers to is among `pids` and `cids`. */
  predicate RefsIn(e: UndoEntry, pids: seq<int>, cids: seq<int>) {
    && (ProductRef(e).Some? ==> ProductRef(e).value in pids)
    && (CustomerRef(e).Some? ==> CustomerRef(e).value in cids)
  }

  /** An entry pushed before a registration does not refer to the record
      that registration created. */
  predicate DoesNotCite(earlier: UndoEntry, later: UndoEntry) {
    && (later.ProductAdded? ==> ProductRef(earlier) != Some(later.product.id))
    && (later.CustomerAdded? ==> CustomerRef(earlier) != Some(later.customer.id))
  }

  /** The sales recorded in an undo history, oldest first. */
  function SalesOf(h: seq<UndoEntry>): seq<Sale> {
    if h == [] then []
    else
      match Top(h)
      case SaleMade(v) => SalesOf(Pop(h)) + [v]
      case _ => SalesOf(Pop(h))
  }

  function SpendTerm(id: int): Sale -> real {
    (v: Sale) => if v.customerId == id then v.total else 0.0
  }

  /** What the sales in `vs` add up to for customer `id`. */
  function SpentBy(vs: seq<Sale>, id: int): real {
    Sum(vs, SpendTerm(id))
  }

  // --------------------------------------------------------------- invariant

  ghost predicate Ascending(ids: seq<int>) {
    forall i, j :: 0 <= i < j < |ids| ==> ids[i] < ids[j]
  }

  ghost predicate AtMost(ids: seq<int>, bound: int) {
    forall i :: 0 <= i < |ids| ==> ids[i] <= bound
  }

  /** Identifiers are unique (ascending in list order) and none exceeds the
      last one issued. */
  ghost predicate IdsWellFormed(s: Store) {
    && Ascending(ProductIds(s.products)) && AtMost(ProductIds(s.products), s.lastProductId)
    && Ascending(CustomerIds(s.customers)) && AtMost(CustomerIds(s.customers), s.lastCustomerId)
  }

  /** Stock and prices are never negative. */
  ghost predicate StockWellFormed(s: Store) {
    forall k :: 0 <= k < |s.products| ==> s.products[k].quantity >= 0 && s.products[k].price >= 0.0
  }

  /** Sales sold something, cost something non-negative, went to a customer
      that had been issued, and are exactly the sales the undo history records. */
  ghost predicate SalesWellFormed(s: Store) {
    && s.sales == SalesOf(s.history)
    && forall k :: 0 <= k < |s.sales| ==>
         s.sales[k].quantity > 0 && s.sales[k].total >= 0.0 && s.sales[k].customerId <= s.lastCustomerId
  }

  /** Every undo entry refers to records still in the store, and no entry
      refers to a record registered after it was pushed. */
  ghost predicate HistoryWellFormed(s: Store) {
    && HistoryRefsIn(s.history, ProductIds(s.products), CustomerIds(s.customers))
    && HistoryOrdered(s.history)
  }

  ghost predicate HistoryRefsIn(h: seq<UndoEntry>, pids: seq<int>, cids: seq<int>) {
    forall i :: 0 <= i < |h| ==> RefsIn(h[i], pids, cids)
  }

  ghost predicate HistoryOrdered(h: seq<UndoEntry>) {
    forall i, j :: 0 <= i < j < |h| ==> DoesNotCite(h[i], h[j])
  }

  /** Each customer's spend is the sum of the totals of their sales still
      in the queue. */
  ghost predicate SpendWellFormed(s: Store) {
    forall k :: 0 <= k < |s.customers| ==> s.customers[k].spent == SpentBy(s.sales, s.customers[k].id)
  }

  ghost predicate Valid(s: Store) {
    && IdsWellFormed(s)
    && StockWellFormed(s)
    && SalesWellFormed(s)
    && HistoryWellFormed(s)
    && SpendWellFormed(s)
  }

  // ----------------------------------------------------------- helper facts

  lemma RemoveAtAscending(ids: seq<int>, i: nat, bound: int)
    requires i < |ids| && Ascending(ids) && AtMost(ids, bound)
    ensures Ascending(RemoveAt(ids, i)) && AtMost(RemoveAt(ids, i), bound)
    ensures forall x :: x in ids && x != ids[i] ==> x in RemoveAt(ids, i)
  {
    var r := RemoveAt(ids, i);
    forall x | x in ids && x != ids[i]
      ensures x in r
    {
      var k :| 0 <= k < |ids| && ids[k] == x;
      if k < i {
        assert r[k] == x;
      } else {
        assert r[k - 1] == x;
      }
    }
  }

  lemma ProductIdsRemoveAt(ps: seq<Product>, i: nat)
    requires i < |ps|
    ensures ProductIds(RemoveAt(ps, i)) == RemoveAt(ProductIds(ps), i)
  {
  }

  lemma CustomerIdsRemoveAt(cs: seq<Customer>, i: nat)
    requires i < |cs|
    ensures CustomerIds(RemoveAt(cs, i)) == RemoveAt(CustomerIds(cs), i)
  {
  }

  lemma SumSingle<T>(x: T, f: T -> real)
    ensures Sum([x], f) == f(x)
  {
    assert [x][1..] == [];
  }

  lemma {:induction false} SumZero<T>(xs: seq<T>, f: T -> real)
    requires forall k :: 0 <= k < |xs| ==> f(xs[k]) == 0.0
    ensures Sum(xs, f) == 0.0
  {
    if xs != [] {
      assert forall k :: 0 <= k < |xs[1..]| ==> xs[1..][k] == xs[k + 1];
      SumZero(xs[1..], f);
    }
  }

  /** Appending a sale adds its total to its own customer's spend only. */
  lemma SpentByAppend(vs: seq<Sale>, v: Sale, id: int)
    ensures SpentBy(vs + [v], id) == SpentBy(vs, id) + (if v.customerId == id then v.total else 0.0)
  {
    SumAppend(vs, [v], SpendTerm(id));
    SumSingle(v, SpendTerm(id));
  }

  /** Nobody has spent anything on sales that are not theirs. */
  lemma SpentByNone(vs: seq<Sale>, id: int)
    requires forall k :: 0 <= k < |vs| ==> vs[k].customerId != id
    ensures SpentBy(vs, id) == 0.0
  {
    SumZero(vs, SpendTerm(id));
  }

  /** The sales of the history with one more entry on top. */
  lemma SalesOfPush(h: seq<UndoEntry>, e: UndoEntry)
    ensures SalesOf(h + [e]) == if e.SaleMade? then SalesOf(h) + [e.sale] else SalesOf(h)
  {
    assert Pop(h + [e]) == h;
  }

  // ------------------------------------------------------------ preservation

  lemma InitialValid()
    ensures Valid(Initial())
  {
  }

  /** Pushing an entry keeps the history well formed when the entry's
      references are present, the old references survive, and no older
      entry cites what the new entry registers. */
  lemma PushHistory(h: seq<UndoEntry>, e: UndoEntry, pids: seq<int>, cids: seq<int>, pids': seq<int>, cids': seq<int>)
    requires HistoryRefsIn(h, pids, cids) && HistoryOrdered(h)
    requires forall x :: x in pids ==> x in pids'
    requires forall x :: x in cids ==> x in cids'
    requires RefsIn(e, pids', cids')
    requires forall i :: 0 <= i < |h| ==> DoesNotCite(h[i], e)
    ensures HistoryRefsIn(h + [e], pids', cids') && HistoryOrdered(h + [e])
  {
    assert forall i :: 0 <= i < |h| ==> (h + [e])[i] == h[i];
    forall i | 0 <= i < |h| + 1
      ensures RefsIn((h + [e])[i], pids', cids')
    {
      if i < |h| {
        assert RefsIn(h[i], pids, cids);
      }
    }
    forall i, j | 0 <= i < j < |h| + 1
      ensures DoesNotCite((h + [e])[i], (h + [e])[j])
    {
      if j < |h| {
        assert DoesNotCite(h[i], h[j]);
      }
    }
  }

  /** No entry of a well-formed history refers to an identifier above the counters. */
  lemma HistoryRefsBelow(s: Store)
    requires IdsWellFormed(s) && HistoryWellFormed(s)
    ensures forall i :: 0 <= i < |s.history| ==>
      && (ProductRef(s.history[i]).Some? ==> ProductRef(s.history[i]).value <= s.lastProductId)
      && (CustomerRef(s.history[i]).Some? ==> CustomerRef(s.history[i]).value <= s.lastCustomerId)
  {
    forall i | 0 <= i < |s.history|
      ensures ProductRef(s.history[i]).Some? ==> ProductRef(s.history[i]).value <= s.lastProductId
      ensures CustomerRef(s.history[i]).Some? ==> CustomerRef(s.history[i]).value <= s.lastCustomerId
    {
      assert RefsIn(s.history[i], ProductIds(s.products), CustomerIds(s.customers));
    }
  }

  lemma RegisterProductValid(s: Store, typedName: string, quantity: int, price: real)
    requires Valid(s)
    ensures Valid(RegisterProduct(s, typedName, quantity, price).store)
  {
    var r := RegisterProduct(s, typedName, quantity, price);
    if r.status.Accepted? {
      RegisterProductIds(s, typedName, quantity, price);
      RegisterProductHistory(s, typedName, quantity, price);
      SalesOfPush(s.history, Top(r.store.history));
    }
  }

  /** The new product's identifier is above every identifier in use. */
  lemma RegisterProductIds(s: Store, typedName: string, quantity: int, price: real)
    requires IdsWellFormed(s) && StockWellFormed(s)
    requires RegisterProduct(s, typedName, quantity, price).status.Accepted?
    ensures var t := RegisterProduct(s, typedName, quantity, price).store;
      && IdsWellFormed(t) && StockWellFormed(t)
      && ProductIds(t.products) == ProductIds(s.products) + [t.lastProductId]
  {
    var t := RegisterProduct(s, typedName, quantity, price).store;
    assert ProductIds(t.products) == ProductIds(s.products) + [t.lastProductId];
  }

  /** Nothing in the history refers to the identifier the new product gets. */
  lemma RegisterProductHistory(s: Store, typedName: string, quantity: int, price: real)
    requires IdsWellFormed(s) && HistoryWellFormed(s)
    requires RegisterProduct(s, typedName, quantity, price).status.Accepted?
    ensures HistoryWellFormed(RegisterProduct(s, typedName, quantity, price).store)
  {
    var t := RegisterProduct(s, typedName, quantity, price).store;
    var p := t.products[|s.products|];
    assert t.customers == s.customers && t.history == s.history + [ProductAdded(p)];
    assert ProductIds(t.products) == ProductIds(s.products) + [p.id];
    PushRegistration(s, ProductAdded(p), ProductIds(t.products), CustomerIds(s.customers));
  }

  /** A registration entry whose identifier lies above the counter can be
      pushed on a well-formed history. */
  lemma PushRegistration(s: Store, e: UndoEntry, pids': seq<int>, cids': seq<int>)
    requires IdsWellFormed(s) && HistoryWellFormed(s)
    requires e.ProductAdded? ==> e.product.id > s.lastProductId
    requires e.CustomerAdded? ==> e.customer.id > s.lastCustomerId
    requires forall x :: x in ProductIds(s.products) ==> x in pids'
    requires forall x :: x in CustomerIds(s.customers) ==> x in cids'
    requires RefsIn(e, pids', cids')
    ensures HistoryRefsIn(s.history + [e], pids', cids') && HistoryOrdered(s.history + [e])
  {
    HistoryRefsBelow(s);
    PushHistory(s.history, e, ProductIds(s.products), CustomerIds(s.customers), pids', cids');
  }

  lemma RegisterCustomerValid(s: Store, typedName: string)
    requires Valid(s)
    ensures Valid(RegisterCustomer(s, typedName).store)
  {
    var r := RegisterCustomer(s, typedName);
    if r.status.Accepted? {
      RegisterCustomerIds(s, typedName);
      RegisterCustomerHistory(s, typedName);
      RegisterCustomerSpend(s, typedName);
    }
  }

  /** The new customer has no sales, so their spend of 0 is their sum. */
  lemma RegisterCustomerSpend(s: Store, typedName: string)
    requires IdsWellFormed(s) && SalesWellFormed(s) && SpendWellFormed(s)
    requires RegisterCustomer(s, typedName).status.Accepted?
    ensures var t := RegisterCustomer(s, typedName).store;
      SalesWellFormed(t) && SpendWellFormed(t)
  {
    var t := RegisterCustomer(s, typedName).store;
    var c := t.customers[|s.customers|];
    assert t.sales == s.sales && t.customers == s.customers + [c];
    SalesOfPush(s.history, CustomerAdded(c));
    AppendIdleCustomer(s.sales, s.customers, c);
  }

  /** Appending a customer with nothing spent and no sales keeps every
      spend equal to its sum. */
  lemma AppendIdleCustomer(vs: seq<Sale>, cs: seq<Customer>, c: Customer)
    requires forall k :: 0 <= k < |cs| ==> cs[k].spent == SpentBy(vs, cs[k].id)
    requires forall k :: 0 <= k < |vs| ==> vs[k].customerId < c.id
    requires c.spent == 0.0
    ensures forall k :: 0 <= k < |cs + [c]| ==> (cs + [c])[k].spent == SpentBy(vs, (cs + [c])[k].id)
  {
    SpentByNone(vs, c.id);
  }

  /** The new customer's identifier is above every identifier in use. */
  lemma RegisterCustomerIds(s: Store, typedName: string)
    requires IdsWellFormed(s)
    requires RegisterCustomer(s, typedName).status.Accepted?
    ensures var t := RegisterCustomer(s, typedName).store;
      && IdsWellFormed(t)
      && CustomerIds(t.customers) == CustomerIds(s.customers) + [t.lastCustomerId]
  {
    var t := RegisterCustomer(s, typedName).store;
    assert CustomerIds(t.customers) == CustomerIds(s.customers) + [t.lastCustomerId];
  }

  /** Nothing in the history refers to the identifier the new customer gets. */
  lemma RegisterCustomerHistory(s: Store, typedName: string)
    requires IdsWellFormed(s) && HistoryWellFormed(s)
    requires RegisterCustomer(s, typedName).status.Accepted?
    ensures HistoryWellFormed(RegisterCustomer(s, typedName).store)
  {
    var t := RegisterCustomer(s, typedName).store;
    var c := t.customers[|s.customers|];
    assert t.products == s.products && t.history == s.history + [CustomerAdded(c)];
    assert CustomerIds(t.customers) == CustomerIds(s.customers) + [c.id];
    PushRegistration(s, CustomerAdded(c), ProductIds(s.products), CustomerIds(t.customers));
  }

  lemma SellValid(s: Store, productId: int, quantity: int, customerId: int)
    requires Valid(s)
    ensures Valid(Sell(s, productId, quantity, customerId).store)
  {
    if Sell(s, productId, quantity, customerId).status.Accepted? {
      SellIdsUnchanged(s, productId, quantity, customerId);
      SellSalesValid(s, productId, quantity, customerId);
      SellHistoryValid(s, productId, quantity, customerId);
      SellSpendValid(s, productId, quantity, customerId);
    }
  }

  /** A sale changes no identifier and no counter. */
  lemma SellIdsUnchanged(s: Store, productId: int, quantity: int, customerId: int)
    requires Sell(s, productId, quantity, customerId).status.Accepted?
    ensures var t := Sell(s, productId, quantity, customerId).store;
      && ProductIds(t.products) == ProductIds(s.products)
      && CustomerIds(t.customers) == CustomerIds(s.customers)
      && t.lastProductId == s.lastProductId && t.lastCustomerId == s.lastCustomerId
  {
    var t := Sell(s, productId, quantity, customerId).store;
    assert forall k :: 0 <= k < |s.products| ==> t.products[k].id == s.products[k].id;
    assert forall k :: 0 <= k < |s.customers| ==> t.customers[k].id == s.customers[k].id;
  }

  /** The new sale sold something, costs something non-negative and goes to
      an issued customer; the queue still mirrors the history. */
  lemma SellSalesValid(s: Store, productId: int, quantity: int, customerId: int)
    requires StockWellFormed(s) && SalesWellFormed(s) && IdsWellFormed(s)
    requires Sell(s, productId, quantity, customerId).status.Accepted?
    ensures SalesWellFormed(Sell(s, productId, quantity, customerId).store)
  {
    var t := Sell(s, productId, quantity, customerId).store;
    var i := FindProduct(s.products, productId).value;
    var j := FindCustomer(s.customers, customerId).value;
    var v := Top(t.sales);
    assert t.history == s.history + [SaleMade(v)];
    SalesOfPush(s.history, SaleMade(v));
    assert v.total >= 0.0 by {
      assert s.products[i].price >= 0.0;
    }
    assert v.customerId <= s.lastCustomerId by {
      assert CustomerIds(s.customers)[j] == customerId;
    }
  }

  /** The sale's entry refers to the records it was made on, and it is no
      registration, so no older entry can cite it. */
  lemma SellHistoryValid(s: Store, productId: int, quantity: int, customerId: int)
    requires HistoryWellFormed(s)
    requires Sell(s, productId, quantity, customerId).status.Accepted?
    ensures HistoryWellFormed(Sell(s, productId, quantity, customerId).store)
  {
    var t := Sell(s, productId, quantity, customerId).store;
    var i := FindProduct(s.products, productId).value;
    var j := FindCustomer(s.customers, customerId).value;
    var v := Top(t.sales);
    SellIdsUnchanged(s, productId, quantity, customerId);
    assert t.history == s.history + [SaleMade(v)];
    assert RefsIn(SaleMade(v), ProductIds(s.products), CustomerIds(s.customers)) by {
      assert ProductIds(s.products)[i] == productId;
      assert CustomerIds(s.customers)[j] == customerId;
    }
    var pids, cids := ProductIds(s.products), CustomerIds(s.customers);
    PushHistory(s.history, SaleMade(v), pids, cids, pids, cids);
  }

  /** After a sale each customer's spend is still the sum of their queued sales. */
  lemma SellSpendValid(s: Store, productId: int, quantity: int, customerId: int)
    requires IdsWellFormed(s) && SpendWellFormed(s)
    requires Sell(s, productId, quantity, customerId).status.Accepted?
    ensures SpendWellFormed(Sell(s, productId, quantity, customerId).store)
  {
    var t := Sell(s, productId, quantity, customerId).store;
    var j := FindCustomer(s.customers, customerId).value;
    var v := Top(t.sales);
    assert t.sales == s.sales + [v];
    forall k | 0 <= k < |t.customers|
      ensures t.customers[k].spent == SpentBy(t.sales, t.customers[k].id)
    {
      SpentByAppend(s.sales, v, s.customers[k].id);
      if k != j {
        assert CustomerIds(s.customers)[k] != CustomerIds(s.customers)[j];
      }
    }
  }

  lemma UndoProductValid(s: Store)
    requires Valid(s) && s.history != [] && Top(s.history).ProductAdded?
    ensures Valid(UndoLast(s).store)
  {
    var t := UndoLast(s).store;
    var h := s.history;
    var id := Top(h).product.id;
    var pids := ProductIds(s.products);
    assert RefsIn(Top(h), pids, CustomerIds(s.customers));
    var i := FindProduct(s.products, id).value;
    ProductIdsRemoveAt(s.products, i);
    RemoveAtAscending(pids, i, s.lastProductId);
    assert h == Pop(h) + [Top(h)];
    SalesOfPush(Pop(h), Top(h));
    forall k | 0 <= k < |t.history|
      ensures RefsIn(t.history[k], ProductIds(t.products), CustomerIds(t.customers))
    {
      assert t.history[k] == h[k];
      assert RefsIn(h[k], pids, CustomerIds(s.customers));
      assert DoesNotCite(h[k], h[|h| - 1]);
    }
    assert forall k, l :: 0 <= k < l < |t.history| ==> DoesNotCite(t.history[k], t.history[l]) by {
      forall k, l | 0 <= k < l < |t.history|
        ensures DoesNotCite(t.history[k], t.history[l])
      {
        assert DoesNotCite(h[k], h[l]);
      }
    }
    assert forall k :: 0 <= k < |t.products| ==> t.products[k] in s.products;
  }

  lemma UndoCustomerValid(s: Store)
    requires Valid(s) && s.history != [] && Top(s.history).CustomerAdded?
    ensures Valid(UndoLast(s).store)
  {
    var t := UndoLast(s).store;
    var h := s.history;
    var id := Top(h).customer.id;
    var cids := CustomerIds(s.customers);
    assert RefsIn(Top(h), ProductIds(s.products), cids);
    var j := FindCustomer(s.customers, id).value;
    CustomerIdsRemoveAt(s.customers, j);
    RemoveAtAscending(cids, j, s.lastCustomerId);
    assert h == Pop(h) + [Top(h)];
    SalesOfPush(Pop(h), Top(h));
    forall k | 0 <= k < |t.history|
      ensures RefsIn(t.history[k], ProductIds(t.products), CustomerIds(t.customers))
    {
      assert t.history[k] == h[k];
      assert RefsIn(h[k], ProductIds(s.products), cids);
      assert DoesNotCite(h[k], h[|h| - 1]);
    }
    assert forall k, l :: 0 <= k < l < |t.history| ==> DoesNotCite(t.history[k], t.history[l]) by {
      forall k, l | 0 <= k < l < |t.history|
        ensures DoesNotCite(t.history[k], t.history[l])
      {
        assert DoesNotCite(h[k], h[l]);
      }
    }
    forall k | 0 <= k < |t.customers|
      ensures t.customers[k].spent == SpentBy(t.sales, t.customers[k].id)
    {
      if k < j {
        assert t.customers[k] == s.customers[k];
      } else {
        assert t.customers[k] == s.customers[k + 1];
      }
    }
  }

  /** Popping an entry keeps the history ordered and its references present. */
  lemma PopHistory(h: seq<UndoEntry>, pids: seq<int>, cids: seq<int>)
    requires h != [] && HistoryRefsIn(h, pids, cids) && HistoryOrdered(h)
    ensures HistoryRefsIn(Pop(h), pids, cids) && HistoryOrdered(Pop(h))
  {
    assert forall i :: 0 <= i < |Pop(h)| ==> Pop(h)[i] == h[i];
  }

  /** Undoing a sale puts the sold quantity back and takes the sale off the queue. */
  lemma UndoSaleValid(s: Store)
    requires Valid(s) && s.history != [] && Top(s.history).SaleMade?
    ensures Valid(UndoLast(s).store)
  {
    var h := s.history;
    var v := Top(h).sale;
    assert h == Pop(h) + [Top(h)];
    SalesOfPush(Pop(h), Top(h));
    assert s.sales == SalesOf(Pop(h)) + [v];
    UndoSaleStock(s);
    UndoSaleSales(s);
    PopHistory(h, ProductIds(s.products), CustomerIds(s.customers));
    UndoSaleSpend(s);
  }

  lemma UndoSaleStock(s: Store)
    requires StockWellFormed(s) && s.history != [] && Top(s.history).SaleMade?
    requires s.sales != [] && Top(s.sales) == Top(s.history).sale && Top(s.sales).quantity > 0
    ensures StockWellFormed(UndoLast(s).store)
    ensures ProductIds(UndoLast(s).store.products) == ProductIds(s.products)
    ensures CustomerIds(UndoLast(s).store.customers) == CustomerIds(s.customers)
  {
  }

  lemma UndoSaleSales(s: Store)
    requires SalesWellFormed(s) && s.history != [] && Top(s.history).SaleMade?
    requires s.sales == SalesOf(Pop(s.history)) + [Top(s.history).sale]
    ensures SalesWellFormed(UndoLast(s).store)
  {
    var t := UndoLast(s).store;
    assert t.sales == Pop(s.sales) == SalesOf(Pop(s.history));
    assert forall k :: 0 <= k < |t.sales| ==> t.sales[k] == s.sales[k];
  }

  /** After undoing a sale each customer's spend is still the sum of their queued sales. */
  lemma UndoSaleSpend(s: Store)
    requires IdsWellFormed(s) && SpendWellFormed(s) && HistoryWellFormed(s)
    requires s.history != [] && Top(s.history).SaleMade?
    requires s.sales != [] && Top(s.sales) == Top(s.history).sale
    ensures SpendWellFormed(UndoLast(s).store)
  {
    var t := UndoLast(s).store;
    var v := Top(s.history).sale;
    assert RefsIn(Top(s.history), ProductIds(s.products), CustomerIds(s.customers));
    var j := FindCustomer(s.customers, v.customerId).value;
    assert s.sales == Pop(s.sales) + [v];
    forall k | 0 <= k < |t.customers|
      ensures t.customers[k].spent == SpentBy(t.sales, t.customers[k].id)
    {
      SpentByAppend(Pop(s.sales), v, s.customers[k].id);
      if k != j {
        assert CustomerIds(s.customers)[k] != CustomerIds(s.customers)[j];
      }
    }
  }

  /** Undo keeps the store valid, whatever the entry on top. */
  lemma UndoValid(s: Store)
    requires Valid(s)
    ensures Valid(UndoLast(s).store)
  {
    if s.history != [] {
      match Top(s.history)
      case ProductAdded(_) => UndoProductValid(s);
      case CustomerAdded(_) => UndoCustomerValid(s);
      case SaleMade(_) => UndoSaleValid(s);
    }
  }
}

=== FILE: operations.dfy ===
/** The domain operations of the ledger: registering products and customers,
    making a sale, the two value reports and product search. Each mutating
    operation validates first and, when validation fails, hands back the
    store it was given together with the reason. */
module Operations {
  import opened Records
  import opened Text

  /** Why an operation refused to change the store. */
  datatype Reason =
    | EmptyName
    | NegativeQuantity
    | NegativePrice
    | StockEmpty
    | NoCustomers
    | ProductNotFound
    | CustomerNotFound
    | NonPositiveQuantity
    | InsufficientStock

  datatype Status = Accepted | Rejected(reason: Reason)

  /** The store after an operation and what the operation reported. */
  datatype Reply = Reply(store: Store, status: Status)

  /** Registers a product from the name as typed, its quantity and its price.
      The name is stripped; the checks run in the order name, quantity, price. */
  function RegisterProduct(s: Store, typedName: string, quantity: int, price: real): (r: Reply)
    ensures r.status == Rejected(EmptyName) <==> Strip(typedName) == []
    ensures r.status == Rejected(NegativeQuantity) <==> Strip(typedName) != [] && quantity < 0
    ensures r.status == Rejected(NegativePrice) <==> Strip(typedName) != [] && quantity >= 0 && price < 0.0
    ensures r.status.Accepted? <==> Strip(typedName) != [] && quantity >= 0 && price >= 0.0
    ensures r.status.Rejected? ==> r.store == s
    ensures r.status.Accepted? ==>
      && r.store.lastProductId == s.lastProductId + 1
      && r.store.products == s.products + [Product(r.store.lastProductId, Strip(typedName), quantity, price)]
      && r.store.history == s.history + [ProductAdded(r.store.products[|s.products|])]
      && r.store.(products := s.products, history := s.history, lastProductId := s.lastProductId) == s
  {
    var name := Strip(typedName);
    if name == [] then Reply(s, Rejected(EmptyName))
    else if quantity < 0 then Reply(s, Rejected(NegativeQuantity))
    else if price < 0.0 then Reply(s, Rejected(NegativePrice))
    else
      var p := Product(s.lastProductId + 1, name, quantity, price);
      Reply(s.(products := s.products + [p], history := s.history + [ProductAdded(p)], lastProductId := p.id),
            Accepted)
  }

  /** The name a registration stores is already stripped and not empty, so
      typing the stored name again registers the very same product. */
  lemma RegisteredNameStripped(s: Store, typedName: string, quantity: int, price: real)
    requires RegisterProduct(s, typedName, quantity, price).status.Accepted?
    ensures var n := RegisterProduct(s, typedName, quantity, price).store.products[|s.products|].name;
      && n != [] && Strip(n) == n
      && RegisterProduct(s, n, quantity, price) == RegisterProduct(s, typedName, quantity, price)
  {
    var n := Strip(typedName);
    StripIdempotent(typedName);
    assert Strip(n) == n && n != [];
    var p := Product(s.lastProductId + 1, n, quantity, price);
    var t := s.(products := s.products + [p], history := s.history + [ProductAdded(p)], lastProductId := p.id);
    assert RegisterProduct(s, n, quantity, price) == Reply(t, Accepted);
    assert RegisterProduct(s, typedName, quantity, price) == Reply(t, Accepted);
  }

  /** Registers a customer from the name as typed; a new customer has spent nothing. */
  function RegisterCustomer(s: Store, typedName: string): (r: Reply)
    ensures r.status.Accepted? <==> Strip(typedName) != []
    ensures r.status.Rejected? ==> r.status.reason == EmptyName && r.store == s
    ensures r.status.Accepted? ==>
      && r.store.lastCustomerId == s.lastCustomerId + 1
      && r.store.customers == s.customers + [Customer(r.store.lastCustomerId, Strip(typedName), 0.0)]
      && r.store.history == s.history + [CustomerAdded(r.store.customers[|s.customers|])]
      && r.store.(customers := s.customers, history := s.history, lastCustomerId := s.lastCustomerId) == s
  {
    var name := Strip(typedName);
    if name == [] then Reply(s, Rejected(EmptyName))
    else
      var c := Customer(s.lastCustomerId + 1, name, 0.0);
      Reply(s.(customers := s.customers + [c], history := s.history + [CustomerAdded(c)], lastCustomerId := c.id),
            Accepted)
  }

  /** Value of `quantity` units at unit price `price`. */
  function Amount(quantity: int, price: real): real {
    quantity as real * price
  }

  /** The conditions under which a sale goes through: both records found
      and a positive quantity no larger than the product's stock. */
  predicate CanSell(s: Store, productId: int, quantity: int, customerId: int) {
    && FindProduct(s.products, productId).Some?
    && FindCustomer(s.customers, customerId).Some?
    && 0 < quantity <= s.products[FindProduct(s.products, productId).value].quantity
  }

  /** Sells `quantity` units of product `productId` to customer `customerId`.
      The checks run in the program's order; on success the stock drops,
      the customer's spend rises by the sale total, a snapshot joins the end
      of the sales queue and the same snapshot is pushed on the undo history. */
  function Sell(s: Store, productId: int, quantity: int, customerId: int): (r: Reply)
    ensures r.status == Rejected(StockEmpty) <==> s.products == []
    ensures r.status == Rejected(NoCustomers) <==> s.products != [] && s.customers == []
    ensures r.status == Rejected(ProductNotFound) <==>
      s.products != [] && s.customers != [] && FindProduct(s.products, productId).None?
    ensures r.status == Rejected(CustomerNotFound) <==>
      s.customers != [] && FindProduct(s.products, productId).Some? && FindCustomer(s.customers, customerId).None?
    ensures r.status == Rejected(NonPositiveQuantity) <==>
      FindProduct(s.products, productId).Some? && FindCustomer(s.customers, customerId).Some? && quantity <= 0
    ensures r.status == Rejected(InsufficientStock) <==>
      FindProduct(s.products, productId).Some? && FindCustomer(s.customers, customerId).Some? && quantity > 0
      && quantity > s.products[FindProduct(s.products, productId).value].quantity
    ensures r.status.Accepted? <==> CanSell(s, productId, quantity, customerId)
    ensures r.status.Rejected? ==> r.store == s
    ensures r.status.Accepted? ==>
      var i := FindProduct(s.products, productId).value;
      var j := FindCustomer(s.customers, customerId).value;
      var p := s.products[i];
      var c := s.customers[j];
      var v := Sale(productId, p.name, quantity, Amount(quantity, p.price), customerId, c.name);
      && r.store.products == s.products[i := p.(quantity := p.quantity - quantity)]
      && r.store.products[i].quantity >= 0
      && r.store.customers == s.customers[j := c.(spent := c.spent + v.total)]
      && r.store.sales == s.sales + [v]
      && r.store.history == s.history + [SaleMade(v)]
      && r.store.lastProductId == s.lastProductId
      && r.store.lastCustomerId == s.lastCustomerId
  {
    if s.products == [] then Reply(s, Rejected(StockEmpty))
    else if s.customers == [] then Reply(s, Rejected(NoCustomers))
    else
      var pi := FindProduct(s.products, productId);
      var ci := FindCustomer(s.customers, customerId);
      if pi.None? then Reply(s, Rejected(ProductNotFound))
      else if ci.None? then Reply(s, Rejected(CustomerNotFound))
      else if quantity <= 0 then Reply(s, Rejected(NonPositiveQuantity))
      else if quantity > s.products[pi.value].quantity then Reply(s, Rejected(InsufficientStock))
      else
        var p := s.products[pi.value];
        var c := s.customers[ci.value];
        var total := Amount(quantity, p.price);
        var v := Sale(p.id, p.name, quantity, total, c.id, c.name);
        Reply(s.(products := s.products[pi.value := p.(quantity := p.quantity - quantity)],
                 customers := s.customers[ci.value := c.(spent := c.spent + total)],
                 sales := s.sales + [v],
                 history := s.history + [SaleMade(v)]),
              Accepted)
  }

  // ---------------------------------------------------------------- reports

  /** Sum of `f` over the elements of `xs`. */
  function Sum<T>(xs: seq<T>, f: T -> real): real {
    if xs == [] then 0.0 else f(xs[0]) + Sum(xs[1..], f)
  }

  lemma {:induction false} SumAppend<T>(a: seq<T>, b: seq<T>, f: T -> real)
    ensures Sum(a + b, f) == Sum(a, f) + Sum(b, f)
  {
    if a != [] {
      assert (a + b)[1..] == a[1..] + b;
      SumAppend(a[1..], b, f);
    } else {
      assert a + b == b;
    }
  }

  /** Replacing one element changes the sum by the difference of the two terms. */
  lemma {:induction false} SumUpdate<T>(xs: seq<T>, i: nat, x: T, f: T -> real)
    requires i < |xs|
    ensures Sum(xs[i := x], f) == Sum(xs, f) - f(xs[i]) + f(x)
  {
    if i > 0 {
      assert xs[i := x][1..] == xs[1..][i - 1 := x];
      SumUpdate(xs[1..], i - 1, x, f);
    } else {
      assert xs[i := x][1..] == xs[1..];
    }
  }

  lemma {:induction false} SumNonnegative<T>(xs: seq<T>, f: T -> real)
    ensures (forall k :: 0 <= k < |xs| ==> f(xs[k]) >= 0.0) ==> Sum(xs, f) >= 0.0
  {
    if xs != [] {
      SumNonnegative(xs[1..], f);
      if forall k :: 0 <= k < |xs| ==> f(xs[k]) >= 0.0 {
        assert f(xs[0]) >= 0.0;
        assert forall k :: 0 <= k < |xs[1..]| ==> f(xs[1..][k]) == f(xs[k + 1]);
      }
    }
  }

  function StockLineValue(p: Product): real {
    Amount(p.quantity, p.price)
  }

  /** Value of the stock: quantity times price, summed over all products. */
  function StockValue(ps: seq<Product>): (r: real)
    ensures (forall k :: 0 <= k < |ps| ==> ps[k].quantity >= 0 && ps[k].price >= 0.0) ==> r >= 0.0
  {
    SumNonnegative(ps, StockLineValue);
    Sum(ps, StockLineValue)
  }

  function SaleTotal(v: Sale): real {
    v.total
  }

  /** Value of the sales made: the totals of the sales queue, summed. */
  function SalesValue(vs: seq<Sale>): (r: real)
    ensures (forall k :: 0 <= k < |vs| ==> vs[k].total >= 0.0) ==> r >= 0.0
  {
    SumNonnegative(vs, SaleTotal);
    Sum(vs, SaleTotal)
  }

  function CustomerSpent(c: Customer): real {
    c.spent
  }

  /** What all customers have spent together. */
  function TotalSpent(cs: seq<Customer>): real {
    Sum(cs, CustomerSpent)
  }

  /** A successful sale of value v moves v out of the stock value and into
      both the sales value and the customers' combined spend. */
  lemma SaleConservation(s: Store, productId: int, quantity: int, customerId: int)
    requires CanSell(s, productId, quantity, customerId)
    ensures var t := Sell(s, productId, quantity, customerId).store;
      var v := t.sales[|t.sales| - 1];
      && v.total == Amount(quantity, s.products[FindProduct(s.products, productId).value].price)
      && StockValue(t.products) == StockValue(s.products) - v.total
      && SalesValue(t.sales) == SalesValue(s.sales) + v.total
      && TotalSpent(t.customers) == TotalSpent(s.customers) + v.total
  {
    var t := Sell(s, productId, quantity, customerId).store;
    var i := FindProduct(s.products, productId).value;
    var j := FindCustomer(s.customers, customerId).value;
    var p := s.products[i];
    var c := s.customers[j];
    var total := Amount(quantity, p.price);
    var p' := p.(quantity := p.quantity - quantity);
    var c' := c.(spent := c.spent + total);
    SumUpdate(s.products, i, p', StockLineValue);
    assert StockLineValue(p') == StockLineValue(p) - total by {
      assert (p.quantity - quantity) as real == p.quantity as real - quantity as real;
    }
    SumUpdate(s.customers, j, c', CustomerSpent);
    SumAppend(s.sales, [t.sales[|t.sales| - 1]], SaleTotal);
  }

  // ----------------------------------------------------------------- search

  /** How the user asked to search: by identifier, by a piece of the name,
      or with a mode the program does not recognise. */
  datatype Query = ById(id: int) | ByName(typedTerm: string) | UnknownMode

  datatype SearchReply = NothingRegistered | Found(matches: seq<Product>) | InvalidMode

  /** Case-insensitive name match against an already lowercased term. */
  predicate NameMatches(p: Product, term: string) {
    Contains(Lower(p.name), term)
  }

  /** The products whose name matches `term`, in stock order. */
  function FilterByName(ps: seq<Product>, term: string): (r: seq<Product>)
    ensures |r| <= |ps|
    ensures forall p :: p in r <==> p in ps && NameMatches(p, term)
  {
    if ps == [] then []
    else (if NameMatches(ps[0], term) then [ps[0]] else []) + FilterByName(ps[1..], term)
  }

  /** Search by name ignores the case of the typed term: a term and its
      lowercased form find the same products. */
  lemma SearchIgnoresTermCase(ps: seq<Product>, typedTerm: string)
    ensures Search(ps, ByName(Lower(typedTerm))) == Search(ps, ByName(typedTerm))
  {
    StripLower(typedTerm);
    LowerIdempotent(Strip(typedTerm));
  }

  /** Filtering distributes over concatenation, so matches keep their stock order. */
  lemma {:induction false} FilterAppend(a: seq<Product>, b: seq<Product>, term: string)
    ensures FilterByName(a + b, term) == FilterByName(a, term) + FilterByName(b, term)
  {
    if a == [] {
      assert a + b == b;
    } else {
      assert (a + b)[1..] == a[1..] + b;
      FilterAppend(a[1..], b, term);
    }
  }

  /** Product search: nothing to search in an empty stock; by identifier the
      first product with that id, if any; by name every product whose
      lowercased name contains the stripped, lowercased term. */
  function Search(ps: seq<Product>, q: Query): (r: SearchReply)
    ensures r == NothingRegistered <==> ps == []
    ensures ps != [] && q.UnknownMode? ==> r == InvalidMode
    ensures ps != [] && q.ById? ==>
      && r.Found?
      && |r.matches| <= 1
      && (r.matches == [] <==> forall k :: 0 <= k < |ps| ==> ps[k].id != q.id)
      && (r.matches != [] ==> r.matches[0] == ps[FindProduct(ps, q.id).value])
    ensures ps != [] && q.ByName? ==>
      && r.Found?
      && (forall p :: p in r.matches <==> p in ps && Occurs(Lower(Strip(q.typedTerm)), Lower(p.name)))
      && r.matches == FilterByName(ps, Lower(Strip(q.typedTerm)))
  {
    if ps == [] then NothingRegistered
    else
      match q
      case ById(id) =>
        (match FindProduct(ps, id)
         case Some(i) => Found([ps[i]])
         case None => Found([]))
      case ByName(typedTerm) =>
        var term := Lower(Strip(typedTerm));
        var r := FilterByName(ps, term);
        assert forall p :: p in ps ==> (NameMatches(p, term) <==> Occurs(term, Lower(p.name))) by {
          forall p | p in ps {
            ContainsIff(Lower(p.name), term);
          }
        }
        Found(r)
      case UnknownMode => InvalidMode
  }
}

=== FILE: records.dfy ===
/** The record store of the inventory ledger: products, customers, the
    queue of sales, the undo history and the two identifier counters,
    together with lookup by identifier. */
module Records {

  datatype Option<+T> = None | Some(value: T)

  /** A product in stock. `price` is exact; the program keeps a float. */
  datatype Product = Product(id: int, name: string, quantity: int, price: real)

  /** A customer and the running total of what they have spent. */
  datatype Customer = Customer(id: int, name: string, spent: real)

  /** Immutable snapshot of a sale, taken when it is made: both identifiers,
      both names, the quantity and the total computed at that moment. */
  datatype Sale = Sale(
    productId: int,
    productName: string,
    quantity: int,
    total: real,
    customerId: int,
    customerName: string)

  /** One entry of the undo history, tagged by the kind of mutation it reverses. */
  datatype UndoEntry =
    | ProductAdded(product: Product)
    | CustomerAdded(customer: Customer)
    | SaleMade(sale: Sale)

  /** The whole ledger. `lastProductId` and `lastCustomerId` hold the most
      recently issued identifiers; the next one is obtained by adding 1. */
  datatype Store = Store(
    products: seq<Product>,
    customers: seq<Customer>,
    sales: seq<Sale>,
    history: seq<UndoEntry>,
    lastProductId: int,
    lastCustomerId: int)

  const ProductIdBase: int := 100
  const CustomerIdBase: int := 200

  /** The ledger at program start when nothing was loaded. */
  function Initial(): (s: Store)
    ensures s.products == [] && s.customers == [] && s.sales == [] && s.history == []
    ensures s.lastProductId + 1 == 101 && s.lastCustomerId + 1 == 201
  {
    Store([], [], [], [], ProductIdBase, CustomerIdBase)
  }

  function ProductIds(ps: seq<Product>): seq<int> {
    seq(|ps|, k requires 0 <= k < |ps| => ps[k].id)
  }

  function CustomerIds(cs: seq<Customer>): seq<int> {
    seq(|cs|, k requires 0 <= k < |cs| => cs[k].id)
  }

  /** Position of the first occurrence of `id` in `ids`, if any. */
  function IndexOf(ids: seq<int>, id: int): (r: Option<nat>)
    ensures r.Some? ==> r.value < |ids| && ids[r.value] == id
    ensures r.Some? ==> forall k :: 0 <= k < r.value ==> ids[k] != id
    ensures r.None? <==> id !in ids
  {
    if |ids| == 0 then None
    else if ids[0] == id then Some(0)
    else
      match IndexOf(ids[1..], id)
      case None => None
      case Some(k) => Some(k + 1)
  }

  /** Linear scan for the first product carrying `id`; absence is a normal answer. */
  function FindProduct(ps: seq<Product>, id: int): (r: Option<nat>)
    ensures r.Some? ==> r.value < |ps| && ps[r.value].id == id
    ensures r.Some? ==> forall k :: 0 <= k < r.value ==> ps[k].id != id
    ensures r.None? <==> forall k :: 0 <= k < |ps| ==> ps[k].id != id
  {
    var ids := ProductIds(ps);
    assert forall k :: 0 <= k < |ps| ==> ids[k] == ps[k].id;
    IndexOf(ids, id)
  }

  /** Linear scan for the first customer carrying `id`; absence is a normal answer. */
  function FindCustomer(cs: seq<Customer>, id: int): (r: Option<nat>)
    ensures r.Some? ==> r.value < |cs| && cs[r.value].id == id
    ensures r.Some? ==> forall k :: 0 <= k < r.value ==> cs[k].id != id
    ensures r.None? <==> forall k :: 0 <= k < |cs| ==> cs[k].id != id
  {
    var ids := CustomerIds(cs);
    assert forall k :: 0 <= k < |cs| ==> ids[k] == cs[k].id;
    IndexOf(ids, id)
  }

  /** `s` with the element at position `i` taken out, the rest in order. */
  function RemoveAt<T>(s: seq<T>, i: nat): (r: seq<T>)
    requires i < |s|
    ensures |r| == |s| - 1
    ensures forall k :: 0 <= k < i ==> r[k] == s[k]
    ensures forall k :: i <= k < |r| ==> r[k] == s[k + 1]
  {
    s[..i] + s[i + 1..]
  }
}

=== FILE: session.dfy ===
/** A session as a sequence of menu commands applied to the store, and the
    properties that hold along any such sequence. */
module Session {
  import opened Records
  import opened Text
  import opened Operations
  import opened Undo
  import opened Ledger

  /** The commands that change the store; reports and search only read it. */
  datatype Command =
    | AddProduct(typedName: string, quantity: int, price: real)
    | AddCustomer(typedName: string)
    | MakeSale(productId: int, quantity: int, customerId: int)
    | UndoLastOperation

  function Step(s: Store, c: Command): Store {
    match c
    case AddProduct(n, q, p) => RegisterProduct(s, n, q, p).store
    case AddCustomer(n) => RegisterCustomer(s, n).store
    case MakeSale(pid, q, cid) => Sell(s, pid, q, cid).store
    case UndoLastOperation => UndoLast(s).store
  }

  function Run(s: Store, cs: seq<Command>): Store
    decreases |cs|
  {
    if cs == [] then s else Run(Step(s, cs[0]), cs[1..])
  }

  /** The command was accepted and pushed an entry on the undo history. */
  predicate Recorded(s: Store, c: Command) {
    match c
    case AddProduct(n, q, p) => RegisterProduct(s, n, q, p).status.Accepted?
    case AddCustomer(n) => RegisterCustomer(s, n).status.Accepted?
    case MakeSale(pid, q, cid) => Sell(s, pid, q, cid).status.Accepted?
    case UndoLastOperation => false
  }

  /** Every command keeps the store valid. */
  lemma StepValid(s: Store, c: Command)
    requires Valid(s)
    ensures Valid(Step(s, c))
  {
    match c
    case AddProduct(n, q, p) => RegisterProductValid(s, n, q, p);
    case AddCustomer(n) => RegisterCustomerValid(s, n);
    case MakeSale(pid, q, cid) => SellValid(s, pid, q, cid);
    case UndoLastOperation => UndoValid(s);
  }

  /** Any session that starts from a valid store (in particular from the
      empty store the program starts with) stays valid. */
  lemma {:induction false} RunValid(s: Store, cs: seq<Command>)
    requires Valid(s)
    ensures Valid(Run(s, cs))
    decreases |cs|
  {
    if cs != [] {
      StepValid(s, cs[0]);
      RunValid(Step(s, cs[0]), cs[1..]);
    }
  }

  /** In a valid store no stock is negative and no customer has a negative spend. */
  lemma ValidAmountsNonnegative(s: Store)
    requires Valid(s)
    ensures forall k :: 0 <= k < |s.products| ==> s.products[k].quantity >= 0
    ensures forall k :: 0 <= k < |s.customers| ==> s.customers[k].spent >= 0.0
    ensures StockValue(s.products) >= 0.0 && SalesValue(s.sales) >= 0.0
  {
    forall k | 0 <= k < |s.customers|
      ensures s.customers[k].spent >= 0.0
    {
      SumNonnegative(s.sales, SpendTerm(s.customers[k].id));
    }
  }

  /** In a valid store the next identifiers to be issued are not in use. */
  lemma ValidNextIdsFresh(s: Store)
    requires Valid(s)
    ensures s.lastProductId + 1 !in ProductIds(s.products)
    ensures s.lastCustomerId + 1 !in CustomerIds(s.customers)
  {
  }

  /** In a valid store, undo right after any recorded command restores the
      store as it was, except that the identifier counters stay where the
      command left them. */
  lemma UndoInvertsStep(s: Store, c: Command)
    requires Valid(s) && Recorded(s, c)
    ensures var t := Step(s, c);
      UndoLast(t).store == s.(lastProductId := t.lastProductId, lastCustomerId := t.lastCustomerId)
  {
    ValidNextIdsFresh(s);
    match c
    case AddProduct(n, q, p) => RegisterProductThenUndo(s, n, q, p);
    case AddCustomer(n) => RegisterCustomerThenUndo(s, n);
    case MakeSale(pid, q, cid) => SellThenUndo(s, pid, q, cid);
  }

  /** Neither counter ever moves back, and each moves by one exactly when a
      registration of its kind is recorded. */
  lemma StepCounters(s: Store, c: Command)
    ensures var t := Step(s, c);
      && t.lastProductId == s.lastProductId + (if c.AddProduct? && Recorded(s, c) then 1 else 0)
      && t.lastCustomerId == s.lastCustomerId + (if c.AddCustomer? && Recorded(s, c) then 1 else 0)
  {
  }

  /** The product identifiers a session issues, in the order it issues them. */
  function IssuedProductIds(s: Store, cs: seq<Command>): seq<int>
    decreases |cs|
  {
    if cs == [] then []
    else
      var t := Step(s, cs[0]);
      (if cs[0].AddProduct? && Recorded(s, cs[0]) then [t.lastProductId] else [])
        + IssuedProductIds(t, cs[1..])
  }

  /** The customer identifiers a session issues, in the order it issues them. */
  function IssuedCustomerIds(s: Store, cs: seq<Command>): seq<int>
    decreases |cs|
  {
    if cs == [] then []
    else
      var t := Step(s, cs[0]);
      (if cs[0].AddCustomer? && Recorded(s, cs[0]) then [t.lastCustomerId] else [])
        + IssuedCustomerIds(t, cs[1..])
  }

  /** Along any session, undos included, the product identifiers issued
      strictly increase, all lie above the counter the session started
      from, and none lies above the counter it ends with. */
  lemma {:induction false} IssuedProductIdsIncrease(s: Store, cs: seq<Command>)
    ensures var ids := IssuedProductIds(s, cs);
      && Ascending(ids)
      && forall k :: 0 <= k < |ids| ==> s.lastProductId < ids[k] <= Run(s, cs).lastProductId
    decreases |cs|
  {
    if cs != [] {
      var t := Step(s, cs[0]);
      StepCounters(s, cs[0]);
      IssuedProductIdsIncrease(t, cs[1..]);
      RunCountersGrow(t, cs[1..]);
      var head := if cs[0].AddProduct? && Recorded(s, cs[0]) then [t.lastProductId] else [];
      var rest := IssuedProductIds(t, cs[1..]);
      PrependIssued(head, rest, s.lastProductId, t.lastProductId, Run(t, cs[1..]).lastProductId);
    }
  }

  /** The same for customer identifiers. */
  lemma {:induction false} IssuedCustomerIdsIncrease(s: Store, cs: seq<Command>)
    ensures var ids := IssuedCustomerIds(s, cs);
      && Ascending(ids)
      && forall k :: 0 <= k < |ids| ==> s.lastCustomerId < ids[k] <= Run(s, cs).lastCustomerId
    decreases |cs|
  {
    if cs != [] {
      var t := Step(s, cs[0]);
      StepCounters(s, cs[0]);
      IssuedCustomerIdsIncrease(t, cs[1..]);
      RunCountersGrow(t, cs[1..]);
      var head := if cs[0].AddCustomer? && Recorded(s, cs[0]) then [t.lastCustomerId] else [];
      var rest := IssuedCustomerIds(t, cs[1..]);
      PrependIssued(head, rest, s.lastCustomerId, t.lastCustomerId, Run(t, cs[1..]).lastCustomerId);
    }
  }

  /** An identifier issued now, if any, precedes everything issued later. */
  lemma PrependIssued(head: seq<int>, rest: seq<int>, lo: int, mid: int, hi: int)
    requires head == [] || (head == [mid] && lo < mid)
    requires lo <= mid <= hi
    requires Ascending(rest) && forall k :: 0 <= k < |rest| ==> mid < rest[k] <= hi
    ensures Ascending(head + rest) && forall k :: 0 <= k < |head + rest| ==> lo < (head + rest)[k] <= hi
  {
  }

  /** The counters at the end of a session are at least those at its start. */
  lemma {:induction false} RunCountersGrow(s: Store, cs: seq<Command>)
    ensures Run(s, cs).lastProductId >= s.lastProductId
    ensures Run(s, cs).lastCustomerId >= s.lastCustomerId
    decreases |cs|
  {
    if cs != [] {
      StepCounters(s, cs[0]);
      RunCountersGrow(Step(s, cs[0]), cs[1..]);
    }
  }

  // A worked session: a product and a customer are registered, three units
  // are sold and the sale is undone. Each step is one lemma.

  const Widget := Product(101, "Widget", 10, 2.5)
  const Ana := Customer(201, "Ana", 0.0)
  const WidgetSale := Sale(101, "Widget", 3, 7.5, 201, "Ana")
  const AfterProduct := Store([Widget], [], [], [ProductAdded(Widget)], 101, 200)
  const AfterCustomer := Store([Widget], [Ana], [], [ProductAdded(Widget), CustomerAdded(Ana)], 101, 201)
  const AfterSale := Store([Widget.(quantity := 7)], [Ana.(spent := 7.5)], [WidgetSale],
                           [ProductAdded(Widget), CustomerAdded(Ana), SaleMade(WidgetSale)], 101, 201)

  /** From the start, "Widget" (10 at 2.50) is registered with identifier 101. */
  lemma WidgetRegistered()
    ensures RegisterProduct(Initial(), "Widget", 10, 2.5) == Reply(AfterProduct, Accepted)
  {
    assert !IsSpace("Widget"[0]) && !IsSpace("Widget"[5]);
    assert TrimStart("Widget") == "Widget";
    assert Strip("Widget") == "Widget";
  }

  /** "Ana" is then registered with identifier 201 and nothing spent. */
  lemma AnaRegistered()
    ensures RegisterCustomer(AfterProduct, "Ana") == Reply(AfterCustomer, Accepted)
  {
    assert !IsSpace("Ana"[0]) && !IsSpace("Ana"[2]);
    assert TrimStart("Ana") == "Ana";
    assert Strip("Ana") == "Ana";
  }

  /** Selling 3 Widgets to Ana leaves 7 in stock, a spend of 7.50 and one sale. */
  lemma WidgetSold()
    ensures Sell(AfterCustomer, 101, 3, 201) == Reply(AfterSale, Accepted)
  {
    assert FindProduct(AfterCustomer.products, 101) == Some(0);
    assert FindCustomer(AfterCustomer.customers, 201) == Some(0);
    assert Amount(3, 2.5) == 7.5;
  }

  /** Undoing that sale restores 10 in stock, a spend of 0 and an empty queue. */
  lemma WidgetSaleUndone()
    ensures UndoLast(AfterSale) == UndoReply(AfterCustomer, SaleCancelled)
  {
    assert FindProduct(AfterSale.products, 101) == Some(0);
    assert FindCustomer(AfterSale.customers, 201) == Some(0);
  }

  /** Each store of the worked session is valid. */
  lemma AfterProductValid()
    ensures Valid(AfterProduct)
  {
    InitialValid();
    WidgetRegistered();
    RegisterProductValid(Initial(), "Widget", 10, 2.5);
  }

  lemma AfterCustomerValid()
    ensures Valid(AfterCustomer)
  {
    AfterProductValid();
    AnaRegistered();
    RegisterCustomerValid(AfterProduct, "Ana");
  }

  lemma AfterSaleValid()
    ensures Valid(AfterSale)
  {
    AfterCustomerValid();
    WidgetSold();
    SellValid(AfterCustomer, 101, 3, 201);
  }

  /** Saving and reloading the store after the worked sale keeps the
      customer's spend but not the sales queue or the undo history, and the
      reloaded store is not valid, although the saved one is: the spend is
      not the sum of any queued sales. */
  lemma ReloadBreaksSpend()
    ensures Valid(AfterSale)
    ensures !Valid(AfterSale.(sales := [], history := []))
  {
    AfterSaleValid();
    var reloaded := AfterSale.(sales := [], history := []);
    assert SpentBy(reloaded.sales, 201) == 0.0;
    assert reloaded.customers[0].spent != SpentBy(reloaded.sales, reloaded.customers[0].id);
  }
}

=== FILE: text.dfy ===
/** Text helpers used by the ledger: whitespace stripping of typed names,
    ASCII lowercasing and substring containment, as the console program
    applies them to product and customer names and to search terms. */
module Text {

  /** Python's `str.isspace`, by code point: the characters `str.strip()`
      removes when it is called without arguments. */
  predicate IsSpace(c: char) {
    var n := c as int;
    || 0x09 <= n <= 0x0D
    || 0x1C <= n <= 0x20
    || n == 0x85
    || n == 0xA0
    || n == 0x1680
    || 0x2000 <= n <= 0x200A
    || n == 0x2028
    || n == 0x2029
    || n == 0x202F
    || n == 0x205F
    || n == 0x3000
  }

  /** Drops leading whitespace: the result is the suffix of `s` that starts
      at its first non-space character. */
  function TrimStart(s: string): (r: string)
    ensures |r| <= |s| && r == s[|s| - |r|..]
    ensures forall k :: 0 <= k < |s| - |r| ==> IsSpace(s[k])
    ensures r != [] ==> !IsSpace(r[0])
  {
    if s != [] && IsSpace(s[0]) then TrimStart(s[1..]) else s
  }

  /** Drops trailing whitespace: the result is the prefix of `s` that ends
      at its last non-space character. */
  function TrimEnd(s: string): (r: string)
    ensures |r| <= |s| && r == s[..|r|]
    ensures forall k :: |r| <= k < |s| ==> IsSpace(s[k])
    ensures r != [] ==> !IsSpace(r[|r| - 1])
  {
    if s != [] && IsSpace(s[|s| - 1]) then TrimEnd(s[..|s| - 1]) else s
  }

  /** Python's `str.strip()`: a contiguous slice of `s` that neither starts
      nor ends with whitespace. `StripCuts` and `StripUnique` add that
      everything cut away is whitespace and that no other slice qualifies. */
  function Strip(s: string): (r: string)
    ensures |r| <= |s|
    ensures r != [] ==> !IsSpace(r[0]) && !IsSpace(r[|r| - 1])
    ensures Occurs(r, s)
  {
    var t := TrimStart(s);
    var r := TrimEnd(t);
    assert OccursAt(r, s, |s| - |t|) by {
      assert t == s[|s| - |t|..];
      assert r == t[..|r|];
      assert s[|s| - |t|..][..|r|] == s[|s| - |t|..|s| - |t| + |r|];
    }
    r
  }

  /** `r` is `s` with its first `i` characters and everything after `r`
      cut away, all of it whitespace. */
  ghost predicate CutAt(r: string, s: string, i: int) {
    && OccursAt(r, s, i)
    && (forall k :: 0 <= k < i ==> IsSpace(s[k]))
    && (forall k :: i + |r| <= k < |s| ==> IsSpace(s[k]))
  }

  /** Neither the first nor the last character of `r` is whitespace. */
  predicate Trimmed(r: string) {
    r != [] ==> !IsSpace(r[0]) && !IsSpace(r[|r| - 1])
  }

  /** Everything `str.strip()` cuts away is whitespace. */
  lemma StripCuts(s: string)
    ensures exists i :: CutAt(Strip(s), s, i)
  {
    var t := TrimStart(s);
    var r := TrimEnd(t);
    var i := |s| - |t|;
    assert r == Strip(s);
    assert t == s[i..];
    assert r == t[..|r|];
    assert s[i..][..|r|] == s[i..i + |r|];
    assert forall k :: i + |r| <= k < |s| ==> s[k] == t[k - i];
    assert CutAt(r, s, i);
  }

  /** `str.strip()` is the only way to cut whitespace from the ends of `s`
      and leave a slice that is trimmed at both ends. */
  lemma StripUnique(s: string, r: string, i: int)
    requires CutAt(r, s, i) && Trimmed(r)
    ensures r == Strip(s)
  {
    StripCuts(s);
    var j :| CutAt(Strip(s), s, j);
    CutsAgree(s, r, i, Strip(s), j);
  }

  /** Two trimmed slices, each with only whitespace cut away, are equal. */
  lemma CutsAgree(s: string, r: string, i: int, r': string, j: int)
    requires CutAt(r, s, i) && Trimmed(r)
    requires CutAt(r', s, j) && Trimmed(r')
    ensures r == r'
  {
    if r != [] {
      assert s[i] == r[0] && s[i + |r| - 1] == r[|r| - 1];
    }
    if r' != [] {
      assert s[j] == r'[0] && s[j + |r'| - 1] == r'[|r'| - 1];
    }
    if r != [] && r' != [] {
      assert i == j;
      assert i + |r| == j + |r'|;
    }
  }

  /** A name is rejected as empty exactly when it consists of whitespace
      only, so "   " is as empty as "". */
  lemma StripEmptyIff(s: string)
    ensures Strip(s) == [] <==> forall k :: 0 <= k < |s| ==> IsSpace(s[k])
  {
    var t := TrimStart(s);
    if Strip(s) != [] {
      var r := Strip(s);
      var i :| OccursAt(r, s, i);
      assert s[i] == r[0];
    }
  }

  /** Stripping twice is stripping once. */
  lemma StripIdempotent(s: string)
    ensures Strip(Strip(s)) == Strip(s)
  {
    var r := Strip(s);
    if r != [] {
      assert TrimStart(r) == r;
      assert TrimEnd(r) == r;
    }
  }

  /** Lowercasing of one character, ASCII letters only. */
  function LowerChar(c: char): char {
    if 'A' <= c <= 'Z' then (c as int + 32) as char else c
  }

  /** `str.lower()` restricted to ASCII: every character mapped by `LowerChar`. */
  function Lower(s: string): (r: string)
    ensures |r| == |s|
    ensures forall k :: 0 <= k < |s| && !('A' <= s[k] <= 'Z') ==> r[k] == s[k]
  {
    seq(|s|, k requires 0 <= k < |s| => LowerChar(s[k]))
  }

  /** A lowercased string has no upper-case ASCII letter left, and
      lowercasing it again changes nothing. */
  lemma LowerIdempotent(s: string)
    ensures forall k :: 0 <= k < |s| ==> !('A' <= Lower(s)[k] <= 'Z')
    ensures Lower(Lower(s)) == Lower(s)
  {
  }

  /** Lowercasing commutes with stripping: no whitespace character is an
      upper-case letter, and no letter becomes whitespace. */
  lemma StripLower(s: string)
    ensures Strip(Lower(s)) == Lower(Strip(s))
  {
    TrimStartLower(s);
    TrimEndLower(TrimStart(s));
  }

  lemma {:induction false} TrimStartLower(s: string)
    ensures TrimStart(Lower(s)) == Lower(TrimStart(s))
    decreases |s|
  {
    if s != [] {
      assert Lower(s)[0] == LowerChar(s[0]);
      assert Lower(s)[1..] == Lower(s[1..]);
      if IsSpace(s[0]) {
        TrimStartLower(s[1..]);
      }
    }
  }

  lemma {:induction false} TrimEndLower(s: string)
    ensures TrimEnd(Lower(s)) == Lower(TrimEnd(s))
    decreases |s|
  {
    if s != [] {
      assert Lower(s)[|s| - 1] == LowerChar(s[|s| - 1]);
      assert Lower(s)[..|s| - 1] == Lower(s[..|s| - 1]);
      if IsSpace(s[|s| - 1]) {
        TrimEndLower(s[..|s| - 1]);
      }
    }
  }

  /** `needle` occurs in `hay` starting at position `i`. */
  ghost predicate OccursAt(needle: string, hay: string, i: int) {
    0 <= i && i + |needle| <= |hay| && hay[i..i + |needle|] == needle
  }

  /** Python's `needle in hay` for strings, stated as the existence of a
      position; the empty string occurs in every string. */
  ghost predicate Occurs(needle: string, hay: string) {
    exists i :: OccursAt(needle, hay, i)
  }

  /** Substring test by scanning the start positions of `hay` left to right. */
  function Contains(hay: string, needle: string): bool
    decreases |hay|
  {
    if |needle| > |hay| then false
    else if needle <= hay then true
    else Contains(hay[1..], needle)
  }

  /** The scan finds `needle` exactly when it occurs somewhere in `hay`. */
  lemma {:induction false} ContainsIff(hay: string, needle: string)
    ensures Contains(hay, needle) <==> Occurs(needle, hay)
    decreases |hay|
  {
    if |needle| > |hay| {
    } else if needle <= hay {
      assert OccursAt(needle, hay, 0);
    } else {
      ContainsIff(hay[1..], needle);
      if Contains(hay[1..], needle) {
        var i :| OccursAt(needle, hay[1..], i);
        assert hay[1..][i..i + |needle|] == hay[i + 1..i + 1 + |needle|];
        assert OccursAt(needle, hay, i + 1);
      }
      assert !OccursAt(needle, hay, 0);
      if Occurs(needle, hay) {
        var i :| OccursAt(needle, hay, i);
        assert hay[1..][i - 1..i - 1 + |needle|] == hay[i..i + |needle|];
        assert OccursAt(needle, hay[1..], i - 1);
      }
    }
  }
}

=== FILE: undo.dfy ===
/** The undo engine: pops the most recent entry of the undo history and
    reverses the mutation it records, as far as that is still possible. */
module Undo {
  import opened Records
  import opened Operations

  /** What the undo engine reported. A record that is already gone is an
      advisory, not a failure; a sale is reported cancelled whatever could
      be reversed. */
  datatype UndoNote =
    | NothingToUndo
    | ProductRegistrationUndone
    | ProductAlreadyGone
    | CustomerRegistrationUndone
    | CustomerAlreadyGone
    | SaleCancelled

  datatype UndoReply = UndoReply(store: Store, note: UndoNote)

  function Pop<T>(s: seq<T>): seq<T>
    requires s != []
  {
    s[..|s| - 1]
  }

  function Top<T>(s: seq<T>): T
    requires s != []
  {
    s[|s| - 1]
  }

  /** Reverses a sale from its snapshot: the product and the customer are
      looked up again by identifier and each one still present gets its
      quantity or spend back; the tail of the sales queue is dropped when
      there is one. */
  function ReverseSale(s: Store, v: Sale): (r: Store)
    ensures |r.products| == |s.products| && |r.customers| == |s.customers|
    ensures ProductIds(r.products) == ProductIds(s.products)
    ensures CustomerIds(r.customers) == CustomerIds(s.customers)
    ensures FindProduct(s.products, v.productId).None? ==> r.products == s.products
    ensures FindProduct(s.products, v.productId).Some? ==>
      var i := FindProduct(s.products, v.productId).value;
      r.products == s.products[i := s.products[i].(quantity := s.products[i].quantity + v.quantity)]
    ensures FindCustomer(s.customers, v.customerId).None? ==> r.customers == s.customers
    ensures FindCustomer(s.customers, v.customerId).Some? ==>
      var j := FindCustomer(s.customers, v.customerId).value;
      r.customers == s.customers[j := s.customers[j].(spent := s.customers[j].spent - v.total)]
    ensures s.sales == [] ==> r.sales == []
    ensures s.sales != [] ==> r.sales == Pop(s.sales)
    ensures r.history == s.history
    ensures r.lastProductId == s.lastProductId && r.lastCustomerId == s.lastCustomerId
  {
    var ps :=
      match FindProduct(s.products, v.productId)
      case None => s.products
      case Some(i) => s.products[i := s.products[i].(quantity := s.products[i].quantity + v.quantity)];
    var cs :=
      match FindCustomer(s.customers, v.customerId)
      case None => s.customers
      case Some(j) => s.customers[j := s.customers[j].(spent := s.customers[j].spent - v.total)];
    var sales := if s.sales != [] then Pop(s.sales) else s.sales;
    s.(products := ps, customers := cs, sales := sales)
  }

  /** Undoes the last operation. An empty history changes nothing;
      otherwise exactly one entry is popped and the identifier counters are
      never moved back, so an identifier is not issued twice. */
  function UndoLast(s: Store): (r: UndoReply)
    ensures r.note == NothingToUndo <==> s.history == []
    ensures s.history == [] ==> r.store == s
    ensures s.history != [] ==> r.store.history == Pop(s.history)
    ensures r.store.lastProductId == s.lastProductId && r.store.lastCustomerId == s.lastCustomerId
    ensures s.history != [] && Top(s.history).ProductAdded? ==>
      var id := Top(s.history).product.id;
      && r.store.customers == s.customers && r.store.sales == s.sales
      && (FindProduct(s.products, id).None? <==> r.note == ProductAlreadyGone)
      && (FindProduct(s.products, id).None? ==> r.store.products == s.products)
      && (FindProduct(s.products, id).Some? ==>
            && r.note == ProductRegistrationUndone
            && r.store.products == RemoveAt(s.products, FindProduct(s.products, id).value))
    ensures s.history != [] && Top(s.history).CustomerAdded? ==>
      var id := Top(s.history).customer.id;
      && r.store.products == s.products && r.store.sales == s.sales
      && (FindCustomer(s.customers, id).None? <==> r.note == CustomerAlreadyGone)
      && (FindCustomer(s.customers, id).None? ==> r.store.customers == s.customers)
      && (FindCustomer(s.customers, id).Some? ==>
            && r.note == CustomerRegistrationUndone
            && r.store.customers == RemoveAt(s.customers, FindCustomer(s.customers, id).value))
    ensures s.history != [] && Top(s.history).SaleMade? ==>
      && r.note == SaleCancelled
      && r.store == ReverseSale(s, Top(s.history).sale).(history := Pop(s.history))
  {
    if s.history == [] then UndoReply(s, NothingToUndo)
    else
      var rest := s.(history := Pop(s.history));
      match Top(s.history)
      case ProductAdded(p) =>
        (match FindProduct(s.products, p.id)
         case None => UndoReply(rest, ProductAlreadyGone)
         case Some(i) => UndoReply(rest.(products := RemoveAt(s.products, i)), ProductRegistrationUndone))
      case CustomerAdded(c) =>
        (match FindCustomer(s.customers, c.id)
         case None => UndoReply(rest, CustomerAlreadyGone)
         case Some(j) => UndoReply(rest.(customers := RemoveAt(s.customers, j)), CustomerRegistrationUndone))
      case SaleMade(v) =>
        UndoReply(ReverseSale(rest, v), SaleCancelled)
  }

  // ------------------------------------------------------------ round trips

  /** Undo right after a successful sale gives back the store as it was
      before the sale: stock, spend, sales queue and history. */
  lemma SellThenUndo(s: Store, productId: int, quantity: int, customerId: int)
    requires CanSell(s, productId, quantity, customerId)
    ensures UndoLast(Sell(s, productId, quantity, customerId).store) == UndoReply(s, SaleCancelled)
  {
    var t := Sell(s, productId, quantity, customerId).store;
    var i := FindProduct(s.products, productId).value;
    var j := FindCustomer(s.customers, customerId).value;
    assert ProductIds(t.products) == ProductIds(s.products) by {
      assert forall k :: 0 <= k < |s.products| ==> t.products[k].id == s.products[k].id;
    }
    assert CustomerIds(t.customers) == CustomerIds(s.customers) by {
      assert forall k :: 0 <= k < |s.customers| ==> t.customers[k].id == s.customers[k].id;
    }
    assert Pop(t.sales) == s.sales;
    assert Pop(t.history) == s.history;
    var v := Top(t.history).sale;
    assert FindProduct(t.products, v.productId) == Some(i);
    assert FindCustomer(t.customers, v.customerId) == Some(j);
    var u := ReverseSale(t, v);
    assert u.products == s.products;
    assert u.customers == s.customers;
  }

  /** Undo right after registering a product removes it again, provided
      the new identifier was not already carried by a product in stock.
      Everything is restored except the counter, which keeps the issued
      identifier used up. */
  lemma RegisterProductThenUndo(s: Store, typedName: string, quantity: int, price: real)
    requires RegisterProduct(s, typedName, quantity, price).status.Accepted?
    requires s.lastProductId + 1 !in ProductIds(s.products)
    ensures UndoLast(RegisterProduct(s, typedName, quantity, price).store)
         == UndoReply(s.(lastProductId := s.lastProductId + 1), ProductRegistrationUndone)
  {
    var t := RegisterProduct(s, typedName, quantity, price).store;
    assert forall k :: 0 <= k < |s.products| ==> ProductIds(s.products)[k] == s.products[k].id;
    assert FindProduct(t.products, t.lastProductId) == Some(|s.products|);
    assert RemoveAt(t.products, |s.products|) == s.products;
    assert Pop(t.history) == s.history;
  }

  /** Undo right after registering a customer removes them again, provided
      the new identifier was not already carried by a listed customer; the
      counter stays advanced. */
  lemma RegisterCustomerThenUndo(s: Store, typedName: string)
    requires RegisterCustomer(s, typedName).status.Accepted?
    requires s.lastCustomerId + 1 !in CustomerIds(s.customers)
    ensures UndoLast(RegisterCustomer(s, typedName).store)
         == UndoReply(s.(lastCustomerId := s.lastCustomerId + 1), CustomerRegistrationUndone)
  {
    var t := RegisterCustomer(s, typedName).store;
    assert forall k :: 0 <= k < |s.customers| ==> CustomerIds(s.customers)[k] == s.customers[k].id;
    assert FindCustomer(t.customers, t.lastCustomerId) == Some(|s.customers|);
    assert RemoveAt(t.customers, |s.customers|) == s.customers;
    assert Pop(t.history) == s.history;
  }
}
